=== FILE: README.md ===
# MiNiFi C++ byte streams in Dafny

This project models the byte-stream layer that flow-file content moves through
in the MiNiFi C++ agent. It covers two parts.

- **`io::FileStream`** (module `FileStreams`, `file_stream.dfy`). The stream
  keeps a cursor `offset_`, a recorded `length_` and a handle to a
  `std::fstream`. The model is an immutable record `FileStream(content,
  offset, length, isOpen)`, where `content` stands for the bytes of the file
  on disk. The two constructors (the first with its append and truncating
  modes, modelled as `OpenAppending` and `OpenTruncated`; the second as
  `OpenAt`), `seek`, `close`, `write` and `read` are pure transition
  functions. The `void` ones (the constructors, `seek`, `close`) return only
  the new state. `write` and `read` return their return code (or, for `read`,
  the `gsl::narrowing_error` it can throw) together with the new state.
  Whether the underlying `fstream` write, flush and `tellg` succeed is a
  boolean parameter; how the `fstream` read went is a `ReadOutcome`: `Clean`,
  `FailBit` or `BadBitOnly`.
- **Big-endian fixed-width integers on `io::BufferStream`** (modules
  `BigEndian`, `BufferStreams` and `StreamTests`). A `uint8_t`, `uint16_t`,
  `uint32_t` or `uint64_t` is written as 1, 2, 4 or 8 bytes, most significant
  byte first, and read back the same way. `BufferStream` is an append-only
  buffer with a read offset. The unit tests' scenarios are proved as lemmas
  that hold for every run.

`base.dfy` (module `StreamBase`) holds the shared vocabulary: `byte`, an
`Option` standing for a pointer that may be null, and the integer bounds of
`int`, `uint32_t`, `std::streamoff` and `size_t`.

Main results:

- encoding and decoding are inverse in both directions;
- byte `i` of an `n`-byte image is the base-256 digit of weight `256^(n-1-i)`;
- any sequence of integer fields written to a drained buffer stream reads back
  in order; more generally, a stream that begins with the fields' image reads
  back their values and leaves the rest unread;
- for a `FileStream` whose `fstream` read succeeds and whose writes land at the
  cursor, bytes written read back after seeking to where the write began;
- under the same assumption, `write` and `read` keep `length_` equal to the
  file size and keep the cursor inside the file;
- a read on a stream free of I/O errors, with the cursor inside the file,
  reports exactly the number of bytes it delivered.

The model also states what the code does at its edges:

- After seeking past the end of the file, a read throws. The `size_t`
  subtraction `len - offset_` wraps around and cannot be narrowed to `int`,
  for every cursor up to `INT_MAX` short of wrapping back.
- With the cursor `k` short of `2^64`, the subtraction wraps back into range:
  a file of `L` bytes reports `L + k` bytes read (one byte for an empty file at
  `2^64 - 1`).
- A read whose `fstream` read sets `failbit` for a reason other than end of
  file reports the distance to the end. It delivers nothing, and the count exceeds the number of bytes
  asked for whenever more than that remain.
- A read whose `fstream` read sets only `badbit` (an error raised inside the
  stream buffer) passes the eof/fail test. It returns `buflen` and moves the
  cursor by `buflen`, past the end of the file if fewer bytes were left,
  although no bytes are known to have arrived.
- A failed flush returns -1, but `offset_` and `length_` have already moved.

## Model

| member | source | states |
|---|---|---|
| FileStreams.OpenTruncated | libminifi/src/io/FileStream.cpp:34-49 | the non-append constructor opens the stream with the cursor at 0 and `length_` 0 (the output-only open truncates the file) |
| FileStreams.OpenAppending | libminifi/src/io/FileStream.cpp:34-45 | the append constructor sets `length_` to the file's size (0 if the file cannot be opened), puts the cursor at 0 and leaves the stream open |
| FileStreams.OpenAt | libminifi/src/io/FileStream.cpp:52-71 | the offset constructor sets `length_` to the file's size (0 if the file cannot be opened) and the cursor to the given `uint32_t` offset |
| FileStreams.OpenAtReadsFromOffset | libminifi/src/io/FileStream.cpp:52-71 | a stream opened at an offset inside the file reads the file's bytes from that offset and moves the cursor past them |
| FileStreams.Close | libminifi/src/io/FileStream.cpp:73-76 | `close` releases the handle and leaves the file, the cursor and `length_` unchanged |
| FileStreams.ClosedStreamRefusesReads | libminifi/src/io/FileStream.cpp:110-119 | after `close`, every non-empty read returns -1, delivers nothing and changes nothing |
| FileStreams.Seek | libminifi/src/io/FileStream.cpp:78-84 | `seek(o)` sets the cursor to `o` and keeps the file, `length_` and the open handle |
| FileStreams.Write | libminifi/src/io/FileStream.cpp:86-108 | a zero-byte write returns 0 and changes nothing; a null buffer or a failed `fstream` write returns -1 and changes nothing; a write that would end at or past 2^63 bytes fails the same way; a successful write puts the bytes at the cursor, advances the cursor by `size` and raises `length_` to the new cursor if it is past it; it then returns `size`, or -1 if the flush fails after the counters have moved |
| FileStreams.WriteKeepsBounds | libminifi/src/io/FileStream.cpp:93-97 | every write keeps `length_` equal to the file size, and keeps the cursor within the file |
| FileStreams.WriteSeekReadRoundTrip | libminifi/src/io/FileStream.cpp:78-139 | bytes written at the cursor read back unchanged, with count `size`, after seeking back to where the write began, whatever the flush reported |
| FileStreams.Read | libminifi/src/io/FileStream.cpp:110-145 | a zero-length read returns 0; a null buffer or a closed stream returns -1 and changes nothing; a full read returns `buflen`, delivers the next `buflen` bytes and advances the cursor by `buflen`; a read whose `fstream` read sets only `badbit` returns `buflen`, delivers nothing and advances the cursor by `buflen` in `size_t`; a read that sets eof or fail delivers what was left (nothing when `failbit` came from an I/O error), and a failed `tellg` then returns -1; otherwise it moves the cursor and `length_` to the file size and, with the cursor inside the file, returns the file size minus the old cursor, or throws the narrowing error when that exceeds `INT_MAX` |
| FileStreams.ReadKeepsBounds | libminifi/src/io/FileStream.cpp:120-139 | every read keeps `length_` equal to the file size; unless its `fstream` read sets only `badbit`, it keeps the cursor within the file; a short read that reaches `tellg` re-establishes both, whatever the state before |
| FileStreams.BadBitReadOverstates | libminifi/src/io/FileStream.cpp:120-139 | when the `fstream` read sets only `badbit`, the read returns `buflen`, delivers nothing and moves the cursor by `buflen`; the cursor leaves the file exactly when fewer than `buflen` bytes were left |
| FileStreams.ReadReportsBytesDelivered | libminifi/src/io/FileStream.cpp:120-139 | on a stream free of I/O errors, with the cursor inside the file, the count returned is at most `buflen` and equals the number of bytes delivered; those bytes are the next ones after the cursor, and the cursor moves past them |
| FileStreams.ShortReadAtEnd | libminifi/src/io/FileStream.cpp:121-135 | a read that stops short, at the end of the file or on an `fstream` read that sets `failbit`, returns the file length minus the old cursor and sets both the cursor and `length_` to the file length; at the end of the file it delivers the rest of the file |
| FileStreams.ReadPastEndThrows | libminifi/src/io/FileStream.cpp:130-135 | with the cursor past the end of the file but more than `INT_MAX` short of wrapping back to it in `size_t`, a read that sets eof or fail throws the narrowing error after moving the cursor and `length_` to the end |
| FileStreams.ReadFarPastEndWraps | libminifi/src/io/FileStream.cpp:131-135 | with the cursor `k` short of 2^64, the `size_t` subtraction wraps and a read of an `L`-byte file reports `L + k` |
| FileStreams.FailedReadReportsDistanceToEnd | libminifi/src/io/FileStream.cpp:120-135 | a read whose `fstream` read sets `failbit`, with more than `buflen` bytes left after the cursor, delivers nothing and reports a count greater than `buflen` (the distance to the end) |
| BigEndian.Decode | libminifi/test/unit/StreamTests.cpp:29-35 | the value a byte string decodes to fits in as many bytes as the string has |
| BigEndian.DecodeEncode | libminifi/test/unit/StreamTests.cpp:37-71 | decoding the `n`-byte image of any `n`-byte value gives back that value |
| BigEndian.EncodeDecode | libminifi/test/unit/StreamTests.cpp:29-35 | encoding the value of any byte string, at that string's width, gives back the same bytes |
| BigEndian.EncodeInjective | libminifi/test/unit/StreamTests.cpp:37-71 | two values of the same width with the same image are equal |
| BigEndian.ByteIsDigit | libminifi/test/unit/StreamTests.cpp:73-79 | byte `i` of the `n`-byte image is the base-256 digit of weight `256^(n-1-i)` |
| BigEndian.MostSignificantFirst | libminifi/test/unit/StreamTests.cpp:73-79 | the first byte of the image is the value divided by `256^(n-1)`, its most significant digit |
| BufferStreams.NewStream | libminifi/test/unit/StreamTests.cpp:30 | a new buffer stream has nothing to read |
| BufferStreams.WriteBytes | libminifi/test/unit/StreamTests.cpp:29-31 | a raw write returns its size and appends the bytes after whatever is still unread |
| BufferStreams.ReadBytes | libminifi/test/unit/StreamTests.cpp:73-79 | a raw read returns at most `len` and falls short only when it has taken everything unread; the bytes it delivers, followed by what remains unread, are exactly the bytes that were unread before |
| BufferStreams.WriteValue | libminifi/test/unit/StreamTests.cpp:37-41 | writing a `uintN_t` returns `sizeof` and appends the value's big-endian image |
| BufferStreams.ReadValue | libminifi/test/unit/StreamTests.cpp:29-35 | reading a `uintN_t` succeeds exactly when `sizeof` bytes are unread; it then returns `sizeof` and the big-endian decoding of those bytes, and consumes them; otherwise it returns -1 and no value |
| BufferStreams.WriteThenReadValue | libminifi/test/unit/StreamTests.cpp:37-71 | a value of any width written to a drained stream reads back unchanged, with count `sizeof`, and leaves the stream drained |
| BufferStreams.WriteValueThenReadBytes | libminifi/test/unit/StreamTests.cpp:73-79 | the raw bytes of a written value are its big-endian image |
| BufferStreams.WriteBytesThenReadValue | libminifi/test/unit/StreamTests.cpp:55-62 | raw bytes read back as an integer of their width give the value they encode, and that value's image is those bytes |
| BufferStreams.ReadFieldsOfImage | libminifi/test/unit/StreamTests.cpp:37-71 | reading the fields' widths from a stream that begins with their image gives their values in order and leaves the rest unread |
| BufferStreams.WriteFieldsThenReadFields | libminifi/test/unit/StreamTests.cpp:37-71 | any sequence of integer fields written to a drained stream reads back in the order written |
| StreamTests.OneToEightValue | libminifi/test/unit/StreamTests.cpp:29-35 | bytes 01..08 decode to 0x0102030405060708 |
| StreamTests.ReadDataScenario | libminifi/test/unit/StreamTests.cpp:29-35 | writing bytes 01..08 and reading a `uint64_t` returns 8 and 0x0102030405060708 |
| StreamTests.WriteScenario | libminifi/test/unit/StreamTests.cpp:73-79 | writing the `uint64_t` 0x0102030405060708 and reading 8 raw bytes returns 8 and the bytes 01..08 |
| StreamTests.ReadWidthsScenario | libminifi/test/unit/StreamTests.cpp:37-71 | the value 8 written as `uint16_t`, `uint32_t` or `uint64_t` reads back as 8 |
| StreamTests.ReadOneScenario | libminifi/test/unit/StreamTests.cpp:55-62 | one raw byte 8 read as a `uint8_t` returns 1 and the value 8 |

## Left out

- Locking (`std::mutex` in `FileStream`) and logging: concurrency and output are outside a pure model.
- `std::fstream` semantics: open modes, the `app` flag, `clear`/`seekg`/`seekp`, sticky error flags and flush durability. Whether each underlying write, flush, read or `tellg` succeeds is a parameter. The model always writes at `offset_`. With the `app` flag the real stream writes at the end of the file.
- The `write_enable` flag of the offset constructor: it only selects the open mode, which is not modelled.
- The file's path: the file is the `content` byte sequence. For the append and offset constructors it is an `Option` whose `None` means the open failed, so `tellg` reports -1.
- A write that would end at or past 2^63, the largest position a `std::streamoff` can express, is modelled as a failed `fstream` write, so the `size_t` wrap-around of `offset_ += size` never arises. Full reads stay inside the file and cannot wrap; a read that sets only `badbit` advances `offset_` by `buflen` in `size_t` and can leave the file or wrap around (BadBitReadOverstates).
- Read: when the `fstream` read sets `failbit` or `badbit` without reaching the end of the file, the model delivers no bytes. What such a read leaves in the buffer is not specified.
- ReadKeepsBounds: does not promise that the cursor stays inside the file after a read that sets only `badbit`, because the source then advances `offset_` by `buflen` regardless of the file size (BadBitReadOverstates states this).
- `gsl_Expects(size >= 0)`, `gsl_Expects(buflen >= 0)` and calling `write` or `seek` on a closed stream (a null dereference) are preconditions, not modelled behaviour. `gsl::narrow<size_t>` on a non-negative `std::streamoff` cannot fail and is not modelled. The `gsl::narrow<int>` in `read` is modelled; it is the `NarrowingError` reply.
- The implementation of `io::BufferStream` and of the integer overloads of `read`/`write` is not modelled; its behaviour is taken from what `libminifi/test/unit/StreamTests.cpp` asserts. The model assumes that a raw read returns the smaller of the request and the bytes left, and that an integer read with fewer than `sizeof` bytes left returns -1.
- `extensions/windows-event-log/tests/MetadataWalkerTests.cpp`: XML traversal and Windows event-log lookups through foreign libraries and the operating system.
- `libminifi/test/flow-tests/SessionTests.cpp`: an integration test of repositories and the processing session. The session, claim, log and connection code it drives is not part of this model.

=== FILE: base.dfy ===
/**
 Vocabulary shared by the stream models: bytes, the optional buffer a C++
 caller may pass as a null pointer, and the integer widths the stream code
 works with.
 */
module StreamBase {

  /** An unsigned 8-bit value (`uint8_t`), the unit every stream moves. */
  type byte = b: int | 0 <= b < 256

  /** Stands for a pointer argument that may be null. */
  datatype Option<+T> = None | Some(value: T)

  /** Largest value of a 32-bit `int`, the type of stream counts and return codes. */
  const INT_MAX: int := 0x7FFF_FFFF

  /** `uint32_t` values lie below this bound. */
  const UINT32_BOUND: int := 0x1_0000_0000

  /** File sizes and positions (`std::streamoff`, a signed 64-bit value) lie below this bound. */
  const STREAMOFF_BOUND: int := 0x8000_0000_0000_0000

  /** `size_t` and `uint64_t` arithmetic wraps modulo this (a 64-bit target). */
  const SIZE_MODULUS: int := 0x1_0000_0000_0000_0000

  function Max(a: int, b: int): int {
    if a < b then b else a
  }

  /** 256 to the power `n`: one more than the largest value `n` bytes hold. */
  function Pow256(n: nat): (p: nat)
    ensures p >= 1
  {
    if n == 0 then 1 else 256 * Pow256(n - 1)
  }

  /** The `n` zero bytes a file gains when written past its end. */
  function Zeros(n: nat): (r: seq<byte>)
    ensures |r| == n
    ensures forall i :: 0 <= i < n ==> r[i] == 0
  {
    seq(n, _ => 0)
  }
}

=== FILE: big_endian.dfy ===
/**
 The fixed-width unsigned integer layout the streams use: a `uint8_t`,
 `uint16_t`, `uint32_t` or `uint64_t` travels as 1, 2, 4 or 8 bytes,
 most significant byte first.
 */
module BigEndian {
  import opened StreamBase

  /** The four unsigned integer types a stream can write and read. */
  datatype Width = U8 | U16 | U32 | U64

  /** `sizeof` of the integer type. */
  function Size(w: Width): nat {
    match w
    case U8 => 1
    case U16 => 2
    case U32 => 4
    case U64 => 8
  }

  /** `v` is a value of the integer type `w`. */
  predicate Fits(w: Width, v: nat) {
    v < Pow256(Size(w))
  }

  /** The `n`-byte big-endian image of `v`. */
  function Encode(n: nat, v: nat): (r: seq<byte>)
    requires v < Pow256(n)
    ensures |r| == n
  {
    if n == 0 then [] else Encode(n - 1, v / 256) + [v % 256]
  }

  /** The value a big-endian byte string denotes. */
  function Decode(bs: seq<byte>): (v: nat)
    ensures v < Pow256(|bs|)
  {
    if |bs| == 0 then 0
    else
      var high := Decode(bs[..|bs| - 1]);
      assert high * 256 <= (Pow256(|bs| - 1) - 1) * 256;
      high * 256 + bs[|bs| - 1]
  }

  /** Decoding undoes encoding: every value of `n` bytes comes back. */
  lemma {:induction false} DecodeEncode(n: nat, v: nat)
    requires v < Pow256(n)
    ensures Decode(Encode(n, v)) == v
  {
    if n > 0 {
      var e := Encode(n, v);
      assert e[..n - 1] == Encode(n - 1, v / 256);
      DecodeEncode(n - 1, v / 256);
    }
  }

  /** Encoding undoes decoding: every byte string is the image of its value. */
  lemma {:induction false} EncodeDecode(bs: seq<byte>)
    ensures Encode(|bs|, Decode(bs)) == bs
  {
    if |bs| > 0 {
      var n := |bs|;
      var high := Decode(bs[..n - 1]);
      var v := Decode(bs);
      assert v == high * 256 + bs[n - 1];
      assert v / 256 == high && v % 256 == bs[n - 1];
      EncodeDecode(bs[..n - 1]);
      assert bs == bs[..n - 1] + [bs[n - 1]];
    }
  }

  /** Two values of the same width have the same image only if they are equal. */
  lemma EncodeInjective(n: nat, v: nat, u: nat)
    requires v < Pow256(n) && u < Pow256(n)
    requires Encode(n, v) == Encode(n, u)
    ensures v == u
  {
    DecodeEncode(n, v);
    DecodeEncode(n, u);
  }

  /** `(a / b) / c == a / (b * c)` for positive divisors. */
  lemma DivDiv(a: nat, b: nat, c: nat)
    requires b > 0 && c > 0
    ensures (a / b) / c == a / (b * c)
  {
    var q := a / b;
    var r := a % b;
    var q2 := q / c;
    var r2 := q % c;
    DivMod(a, b);
    DivMod(q, c);
    Regroup(q2, r2, b, c, r);
    RemainderBound(r2, r, b, c);
    DivUnique(a, b * c, q2, r2 * b + r);
  }

  lemma DivMod(a: nat, d: nat)
    requires d > 0
    ensures a == (a / d) * d + a % d && 0 <= a % d < d
  {
  }

  lemma Regroup(q2: nat, r2: nat, b: nat, c: nat, r: nat)
    ensures (q2 * c + r2) * b + r == q2 * (b * c) + (r2 * b + r)
  {
    calc {
      (q2 * c + r2) * b + r;
      q2 * c * b + r2 * b + r;
      q2 * (b * c) + (r2 * b + r);
    }
  }

  lemma RemainderBound(r2: nat, r: nat, b: nat, c: nat)
    requires r2 < c && r < b
    ensures r2 * b + r < b * c
  {
    MulMonotone(r2, c - 1, b);
    assert (c - 1) * b + b == b * c;
  }

  /** The quotient is the only `k` with `a == k * d + m` and `0 <= m < d`. */
  lemma DivUnique(a: nat, d: nat, k: nat, m: nat)
    requires d > 0 && m < d && a == k * d + m
    ensures a / d == k
  {
    var q := a / d;
    var r := a % d;
    assert q * d + r == k * d + m;
    assert (q - k) * d == m - r;
    if q < k {
      MulAtLeast(k - q, d);
      assert false;
    } else if q > k {
      MulAtLeast(q - k, d);
      assert false;
    }
  }

  lemma MulAtLeast(x: nat, d: nat)
    requires x >= 1
    ensures x * d >= d
  {
  }

  /**
   The positional reading of the layout: byte `i` of the image is the base-256
   digit of weight `256^(n-1-i)`, so byte 0 is the most significant.
   */
  lemma {:induction false} ByteIsDigit(n: nat, v: nat, i: nat)
    requires v < Pow256(n) && i < n
    ensures Encode(n, v)[i] == (v / Pow256(n - 1 - i)) % 256
  {
    if i < n - 1 {
      ByteIsDigit(n - 1, v / 256, i);
      DivDiv(v, 256, Pow256(n - 2 - i));
      assert Pow256(n - 1 - i) == 256 * Pow256(n - 2 - i);
    }
  }

  /** The first byte of the image is the top digit of the value. */
  lemma MostSignificantFirst(n: nat, v: nat)
    requires v < Pow256(n) && n > 0
    ensures Encode(n, v)[0] == v / Pow256(n - 1)
  {
    ByteIsDigit(n, v, 0);
    var p := Pow256(n - 1);
    assert Pow256(n) == 256 * p;
    QuotientBelow(v, p);
  }

  /** A value below `256 * p` has a quotient by `p` that fits one byte. */
  lemma QuotientBelow(v: nat, p: nat)
    requires p > 0 && v < 256 * p
    ensures v / p < 256
    ensures (v / p) % 256 == v / p
  {
    var q := v / p;
    assert q * p <= v by {
      assert v == q * p + v % p;
    }
    if q >= 256 {
      MulMonotone(256, q, p);
      assert false;
    }
  }

  lemma MulMonotone(a: nat, b: nat, p: nat)
    requires a <= b
    ensures a * p <= b * p
  {
  }
}

=== FILE: buffer_stream.dfy ===
/**
 An in-memory `io::BufferStream`: writes append to a growing buffer, reads
 consume it from a read offset, and the fixed-width integer overloads move
 values in the big-endian layout of module BigEndian.
 */
module BufferStreams {
  import opened StreamBase
  import opened BigEndian

  /** The bytes written so far and how many of them have been read. */
  datatype BufferStream = BufferStream(buffer: seq<byte>, readOffset: nat)

  predicate Valid(s: BufferStream) {
    s.readOffset <= |s.buffer|
  }

  /** The bytes written but not yet read. */
  function Unread(s: BufferStream): seq<byte>
    requires Valid(s)
  {
    s.buffer[s.readOffset..]
  }

  /** Outcome of a write: the count returned and the stream after it. */
  datatype Written = Written(ret: int, stream: BufferStream)

  /** Outcome of a raw read: the count returned, the bytes delivered, the stream after it. */
  datatype BytesRead = BytesRead(ret: int, bytes: seq<byte>, stream: BufferStream)

  /** Outcome of an integer read: the count returned (or -1), the value, the stream after it. */
  datatype ValueRead = ValueRead(ret: int, value: Option<nat>, stream: BufferStream)

  /** A freshly constructed stream holds nothing to read. */
  function NewStream(): (s: BufferStream)
    ensures Valid(s) && Unread(s) == []
  {
    BufferStream([], 0)
  }

  /** `write(data, size)`: appends every byte and reports how many. */
  function WriteBytes(s: BufferStream, data: seq<byte>): (r: Written)
    requires Valid(s)
    ensures r.ret == |data|
    ensures Valid(r.stream) && Unread(r.stream) == Unread(s) + data
    ensures r.stream.readOffset == s.readOffset
  {
    Written(|data|, BufferStream(s.buffer + data, s.readOffset))
  }

  /**
   `read(buf, len)`: delivers up to `len` unread bytes in order. It falls short
   of `len` only when it has taken everything there was.
   */
  function ReadBytes(s: BufferStream, len: nat): (r: BytesRead)
    requires Valid(s)
    ensures 0 <= r.ret <= len && r.ret == |r.bytes|
    ensures r.ret < len ==> r.ret == |Unread(s)|
    ensures Valid(r.stream) && Unread(s) == r.bytes + Unread(r.stream)
    ensures r.stream.buffer == s.buffer
  {
    var n := if len <= |s.buffer| - s.readOffset then len else |s.buffer| - s.readOffset;
    BytesRead(n, s.buffer[s.readOffset..s.readOffset + n], BufferStream(s.buffer, s.readOffset + n))
  }

  /** `write(uintN_t)`: appends the big-endian image of `v` and reports `sizeof`. */
  function WriteValue(s: BufferStream, w: Width, v: nat): (r: Written)
    requires Valid(s) && Fits(w, v)
    ensures r.ret == Size(w)
    ensures Valid(r.stream) && Unread(r.stream) == Unread(s) + Encode(Size(w), v)
  {
    WriteBytes(s, Encode(Size(w), v))
  }

  /**
   `read(uintN_t&)`: takes `sizeof` bytes and decodes them most significant
   first; with fewer bytes left it reports -1 and yields no value.
   */
  function ReadValue(s: BufferStream, w: Width): (r: ValueRead)
    requires Valid(s)
    ensures Valid(r.stream)
    ensures r.ret == Size(w) || r.ret == -1
    ensures r.ret == Size(w) <==> |Unread(s)| >= Size(w)
    ensures r.ret == -1 <==> r.value == None
    ensures r.value.Some? ==> Fits(w, r.value.value)
    ensures r.ret == Size(w) ==> r.value == Some(Decode(Unread(s)[..Size(w)]))
    ensures r.ret == Size(w) ==> Unread(r.stream) == Unread(s)[Size(w)..]
  {
    var got := ReadBytes(s, Size(w));
    if got.ret == Size(w) then ValueRead(Size(w), Some(Decode(got.bytes)), got.stream)
    else ValueRead(-1, None, got.stream)
  }

  /** A value written to a stream with nothing left unread reads back unchanged. */
  lemma WriteThenReadValue(s: BufferStream, w: Width, v: nat)
    requires Valid(s) && Unread(s) == [] && Fits(w, v)
    ensures var r := ReadValue(WriteValue(s, w, v).stream, w);
      r.ret == Size(w) && r.value == Some(v) && Unread(r.stream) == []
  {
    var t := WriteValue(s, w, v).stream;
    assert Unread(t) == Encode(Size(w), v);
    assert Unread(t)[..Size(w)] == Encode(Size(w), v);
    DecodeEncode(Size(w), v);
  }

  /** The raw bytes of a written value are its big-endian image. */
  lemma WriteValueThenReadBytes(s: BufferStream, w: Width, v: nat)
    requires Valid(s) && Unread(s) == [] && Fits(w, v)
    ensures var r := ReadBytes(WriteValue(s, w, v).stream, Size(w));
      r.ret == Size(w) && r.bytes == Encode(Size(w), v) && Unread(r.stream) == []
  {
    assert Unread(WriteValue(s, w, v).stream) == Encode(Size(w), v);
  }

  /** Raw bytes written and read back as an integer of the same width decode them. */
  lemma WriteBytesThenReadValue(s: BufferStream, w: Width, data: seq<byte>)
    requires Valid(s) && Unread(s) == [] && |data| == Size(w)
    ensures var r := ReadValue(WriteBytes(s, data).stream, w);
      r.ret == Size(w) && r.value == Some(Decode(data)) && Encode(Size(w), r.value.value) == data
  {
    var t := WriteBytes(s, data).stream;
    assert Unread(t) == data;
    assert Unread(t)[..Size(w)] == data;
    EncodeDecode(data);
  }

  /** Outcome of reading several integers: their values (`None` if one came up short), the stream after. */
  datatype FieldsRead = FieldsRead(values: Option<seq<nat>>, stream: BufferStream)

  /** One integer field of a record serialised onto a stream. */
  datatype Field = Field(width: Width, value: nat)

  predicate AllFit(fs: seq<Field>) {
    forall i :: 0 <= i < |fs| ==> Fits(fs[i].width, fs[i].value)
  }

  function Widths(fs: seq<Field>): (ws: seq<Width>)
    ensures |ws| == |fs|
  {
    if |fs| == 0 then [] else [fs[0].width] + Widths(fs[1..])
  }

  function Values(fs: seq<Field>): (vs: seq<nat>)
    ensures |vs| == |fs|
  {
    if |fs| == 0 then [] else [fs[0].value] + Values(fs[1..])
  }

  /** The bytes of the fields laid out one after another. */
  function Image(fs: seq<Field>): (bs: seq<byte>)
    requires AllFit(fs)
  {
    if |fs| == 0 then [] else Encode(Size(fs[0].width), fs[0].value) + Image(fs[1..])
  }

  /** Writes the fields in order, each with the integer overload of its width. */
  function WriteFields(s: BufferStream, fs: seq<Field>): (t: BufferStream)
    requires Valid(s) && AllFit(fs)
    ensures Valid(t) && Unread(t) == Unread(s) + Image(fs)
    decreases |fs|
  {
    if |fs| == 0 then s
    else
      var next := WriteValue(s, fs[0].width, fs[0].value).stream;
      assert Unread(next) == Unread(s) + Encode(Size(fs[0].width), fs[0].value);
      WriteFields(next, fs[1..])
  }

  /** Reads one integer per width, in order; `None` once a read comes up short. */
  function ReadFields(s: BufferStream, ws: seq<Width>): (r: FieldsRead)
    requires Valid(s)
    ensures Valid(r.stream)
    ensures r.values.Some? ==> |r.values.value| == |ws|
    decreases |ws|
  {
    if |ws| == 0 then FieldsRead(Some([]), s)
    else
      var first := ReadValue(s, ws[0]);
      if first.value.None? then FieldsRead(None, first.stream)
      else
        var rest := ReadFields(first.stream, ws[1..]);
        if rest.values.None? then FieldsRead(None, rest.stream)
        else FieldsRead(Some([first.value.value] + rest.values.value), rest.stream)
  }

  /** Reading the widths of `fs` off a stream that starts with their image yields their values. */
  lemma {:induction false} ReadFieldsOfImage(s: BufferStream, fs: seq<Field>, rest: seq<byte>)
    requires Valid(s) && AllFit(fs) && Unread(s) == Image(fs) + rest
    ensures ReadFields(s, Widths(fs)).values == Some(Values(fs))
    ensures Unread(ReadFields(s, Widths(fs)).stream) == rest
    decreases |fs|
  {
    if |fs| > 0 {
      var w := fs[0].width;
      var v := fs[0].value;
      var e := Encode(Size(w), v);
      assert Unread(s) == e + (Image(fs[1..]) + rest);
      assert Unread(s)[..Size(w)] == e;
      DecodeEncode(Size(w), v);
      var first := ReadValue(s, w);
      assert first.value == Some(v);
      assert Unread(first.stream) == Image(fs[1..]) + rest;
      assert AllFit(fs[1..]);
      ReadFieldsOfImage(first.stream, fs[1..], rest);
      assert Widths(fs)[1..] == Widths(fs[1..]);
    }
  }

  /** Fields written to a drained stream come back in the order they were written. */
  lemma WriteFieldsThenReadFields(s: BufferStream, fs: seq<Field>)
    requires Valid(s) && Unread(s) == [] && AllFit(fs)
    ensures var r := ReadFields(WriteFields(s, fs), Widths(fs));
      r.values == Some(Values(fs)) && Unread(r.stream) == []
  {
    var t := WriteFields(s, fs);
    assert Unread(t) == Image(fs) + [];
    ReadFieldsOfImage(t, fs, []);
  }
}

=== FILE: file_stream.dfy ===
/**
 The cursor and length bookkeeping of `io::FileStream`. The file on disk is an
 abstract byte sequence; whether each underlying `std::fstream` call (write,
 flush, read, tellg) succeeds is a parameter of the operation that makes it.
 The stream's own fields are `offset_` (a `size_t`), `length_` and the handle,
 which `close` releases.
 */
module FileStreams {
  import opened StreamBase

  /** `content` stands for the file's bytes; the rest are the stream's fields. */
  datatype FileStream = FileStream(content: seq<byte>, offset: nat, length: nat, isOpen: bool)

  /** What a call hands back: a return code, or the `gsl::narrowing_error` it throws. */
  datatype Reply = Returned(code: int) | NarrowingError

  /** Outcome of `write`: its return code and the stream after it. */
  datatype Wrote = Wrote(ret: int, stream: FileStream)

  /** Outcome of `read`: the reply, the bytes placed in the caller's buffer, the stream after it. */
  datatype Got = Got(reply: Reply, bytes: seq<byte>, stream: FileStream)

  /** `offset_` is a `size_t`, and the file's size is a `std::streamoff`. */
  predicate Valid(s: FileStream) {
    s.offset < SIZE_MODULUS && |s.content| < STREAMOFF_BOUND
  }

  /** `length_` agrees with the size of the file. */
  predicate Tracks(s: FileStream) {
    s.length == |s.content|
  }

  /**
   The file after writing `data` at position `pos`: bytes there are replaced,
   the file grows when the write runs past its end, and a gap between the old
   end and `pos` reads as zeros.
   */
  function Overwrite(content: seq<byte>, pos: nat, data: seq<byte>): (r: seq<byte>)
    ensures |r| == Max(|content|, pos + |data|)
    ensures forall i :: 0 <= i < |data| ==> r[pos + i] == data[i]
    ensures forall i :: 0 <= i < |content| && (i < pos || pos + |data| <= i) ==> r[i] == content[i]
    ensures forall i :: |content| <= i < pos ==> r[i] == 0
  {
    if pos <= |content| then
      content[..pos] + data + (if pos + |data| < |content| then content[pos + |data|..] else [])
    else
      content + Zeros(pos - |content|) + data
  }

  /** The file size `tellg` reports after seeking to the end: -1 when the file is not open. */
  function TellEnd(existing: Option<seq<byte>>): int {
    if existing.Some? then |existing.value| else -1
  }

  /** `FileStream(path, false)`: opened for output only, which truncates the file. */
  function OpenTruncated(): (s: FileStream)
    ensures Valid(s) && Tracks(s) && s.isOpen
    ensures s.offset == 0 && s.length == 0
  {
    FileStream([], 0, 0, true)
  }

  /**
   `FileStream(path, true)`: opened on the existing file (`None` when it cannot
   be opened), `length_` set from its size and the cursor at 0.
   */
  function OpenAppending(existing: Option<seq<byte>>): (s: FileStream)
    requires existing.Some? ==> |existing.value| < STREAMOFF_BOUND
    ensures Valid(s) && Tracks(s) && s.isOpen
    ensures s.offset == 0
    ensures s.length == (if existing.Some? then |existing.value| else 0)
    ensures existing.Some? ==> s.content == existing.value
  {
    var len := TellEnd(existing);
    var content := if existing.Some? then existing.value else [];
    var length := if len > 0 then len else 0;
    Seek(FileStream(content, 0, length, true), 0)
  }

  /**
   `FileStream(path, offset, write_enable)`: opened on the existing file,
   `length_` set from its size, the cursor at the `uint32_t` `offset`. The
   read-only or read-write open mode is not modelled.
   */
  function OpenAt(existing: Option<seq<byte>>, offset: nat): (s: FileStream)
    requires offset < UINT32_BOUND
    requires existing.Some? ==> |existing.value| < STREAMOFF_BOUND
    ensures Valid(s) && Tracks(s) && s.isOpen
    ensures s.offset == offset
    ensures s.length == (if existing.Some? then |existing.value| else 0)
    ensures existing.Some? ==> s.content == existing.value
  {
    var len := TellEnd(existing);
    var content := if existing.Some? then existing.value else [];
    var length := if len > 0 then len else 0;
    Seek(FileStream(content, offset, length, true), offset)
  }

  /** `close`: releases the handle; the file and the counters stay as they were. */
  function Close(s: FileStream): (r: FileStream)
    ensures !r.isOpen
    ensures r.content == s.content && r.offset == s.offset && r.length == s.length
  {
    s.(isOpen := false)
  }

  /**
   `seek(offset)`: moves the cursor and nothing else. It dereferences the
   handle, so the stream must be open.
   */
  function Seek(s: FileStream, offset: nat): (r: FileStream)
    requires Valid(s) && s.isOpen && offset < SIZE_MODULUS
    ensures Valid(r) && r.isOpen
    ensures r.offset == offset
    ensures r.content == s.content && r.length == s.length
  {
    s.(offset := offset)
  }

  /**
   `write(value, size)`: `value` is `None` for a null buffer. `writeOk` and
   `flushOk` say whether the `fstream` write and flush succeed. A write of
   zero bytes and a null buffer return before the handle is touched; every
   other call dereferences it, so only those need an open stream. A write
   that would end at or past `2^63` bytes, the largest position a
   `std::streamoff` expresses, fails like any other failed `fstream` write.
   */
  function Write(s: FileStream, value: Option<seq<byte>>, size: int, writeOk: bool, flushOk: bool): (r: Wrote)
    requires Valid(s)
    requires 0 <= size <= INT_MAX
    requires value.Some? ==> size <= |value.value|
    requires size > 0 && value.Some? ==> s.isOpen
    ensures Valid(r.stream)
    ensures r.ret == size || r.ret == -1
    ensures size == 0 ==> r == Wrote(0, s)
    ensures size > 0 && (value.None? || !writeOk) ==> r == Wrote(-1, s)
    ensures size > 0 && value.Some? && s.offset + size >= STREAMOFF_BOUND ==> r == Wrote(-1, s)
    ensures size > 0 && value.Some? && writeOk && s.offset + size < STREAMOFF_BOUND ==>
      && r.ret == (if flushOk then size else -1)
      && r.stream.isOpen
      && r.stream.offset == s.offset + size
      && r.stream.length == Max(s.length, s.offset + size)
      && r.stream.content == Overwrite(s.content, s.offset, value.value[..size])
  {
    if size == 0 then Wrote(0, s)
    else if value.None? then Wrote(-1, s)
    else if !writeOk || s.offset + size >= STREAMOFF_BOUND then Wrote(-1, s)
    else
      var offset := s.offset + size;
      var length := if offset > s.length then offset else s.length;
      var after := FileStream(Overwrite(s.content, s.offset, value.value[..size]), offset, length, s.isOpen);
      if !flushOk then Wrote(-1, after) else Wrote(size, after)
  }

  /** The bytes from the cursor to the end of the file. */
  function Remaining(s: FileStream): seq<byte> {
    if s.offset <= |s.content| then s.content[s.offset..] else []
  }

  /**
   How the `fstream` read went, apart from running into the end of the file:
   `Clean` with no I/O error; `FailBit` for an error that sets `failbit`;
   `BadBitOnly` for an error raised inside the stream buffer, which sets
   `badbit` alone and so passes the eof/fail test in `read`.
   */
  datatype ReadOutcome = Clean | FailBit | BadBitOnly

  /** The `fstream` read of `buflen` bytes succeeds without setting eof or fail. */
  predicate ReadsFully(s: FileStream, buflen: int, outcome: ReadOutcome) {
    outcome == Clean && s.offset + buflen <= |s.content|
  }

  /**
   `read(buf, buflen)`: `hasBuffer` is false for a null buffer; `outcome` says
   how the `fstream` read went and `tellOk` whether `tellg` succeeds. A read
   that sets eof or fail moves the cursor to the end of the file and reports
   the distance it moved, computed in `size_t` and narrowed to `int`, which
   throws when the result does not fit. A read that sets only `badbit` is
   taken for a full one: the cursor advances by `buflen` (in `size_t`) and
   `buflen` is returned, though no bytes are known to have arrived.
   */
  function Read(s: FileStream, hasBuffer: bool, buflen: int, outcome: ReadOutcome, tellOk: bool): (r: Got)
    requires Valid(s)
    requires 0 <= buflen <= INT_MAX
    ensures Valid(r.stream)
    ensures buflen == 0 ==> r == Got(Returned(0), [], s)
    ensures buflen > 0 && (!hasBuffer || !s.isOpen) ==> r == Got(Returned(-1), [], s)
    ensures buflen > 0 && hasBuffer && s.isOpen && ReadsFully(s, buflen, outcome) ==>
      && r.reply == Returned(buflen)
      && r.bytes == s.content[s.offset..s.offset + buflen]
      && r.stream == s.(offset := s.offset + buflen)
    ensures buflen > 0 && hasBuffer && s.isOpen && outcome == BadBitOnly ==>
      && r.reply == Returned(buflen)
      && r.bytes == []
      && r.stream.content == s.content && r.stream.length == s.length && r.stream.isOpen
      && r.stream.offset == (s.offset + buflen) % SIZE_MODULUS
    ensures buflen > 0 && hasBuffer && s.isOpen && !ReadsFully(s, buflen, outcome) && outcome != BadBitOnly ==>
      && r.bytes == (if outcome == Clean then Remaining(s) else [])
      && (!tellOk ==> r.reply == Returned(-1) && r.stream == s)
      && (tellOk ==> r.stream == s.(offset := |s.content|, length := |s.content|))
      && (tellOk && s.offset <= |s.content| && |s.content| - s.offset <= INT_MAX ==>
            r.reply == Returned(|s.content| - s.offset))
      && (tellOk && s.offset <= |s.content| && |s.content| - s.offset > INT_MAX ==>
            r.reply == NarrowingError)
  {
    if buflen == 0 then Got(Returned(0), [], s)
    else if !hasBuffer || !s.isOpen then Got(Returned(-1), [], s)
    else if ReadsFully(s, buflen, outcome) then
      Got(Returned(buflen), s.content[s.offset..s.offset + buflen],
          s.(offset := s.offset + buflen))
    else if outcome == BadBitOnly then
      Got(Returned(buflen), [], s.(offset := (s.offset + buflen) % SIZE_MODULUS))
    else
      var delivered := if outcome == Clean then Remaining(s) else [];
      if !tellOk then Got(Returned(-1), delivered, s)
      else
        var len := |s.content|;
        var ret := (len - s.offset) % SIZE_MODULUS;
        var after := s.(offset := len, length := len);
        if ret <= INT_MAX then Got(Returned(ret), delivered, after)
        else Got(NarrowingError, delivered, after)
  }

  /** `length_` agrees with the file and the cursor lies within it. */
  predicate InBounds(s: FileStream) {
    Tracks(s) && s.offset <= s.length
  }

  /** Every write keeps `length_` equal to the file's size and the cursor within the file. */
  lemma WriteKeepsBounds(s: FileStream, value: Option<seq<byte>>, size: int, writeOk: bool, flushOk: bool)
    requires Valid(s) && 0 <= size <= INT_MAX
    requires value.Some? ==> size <= |value.value|
    requires size > 0 && value.Some? ==> s.isOpen
    ensures Tracks(s) ==> Tracks(Write(s, value, size, writeOk, flushOk).stream)
    ensures InBounds(s) ==> InBounds(Write(s, value, size, writeOk, flushOk).stream)
  {
  }

  /**
   Every read keeps `length_` equal to the file's size. Unless the `fstream`
   read sets only `badbit`, it also keeps the cursor within the file; a read
   that stops short and finds the end re-establishes both, whatever state the
   stream was in.
   */
  lemma ReadKeepsBounds(s: FileStream, hasBuffer: bool, buflen: int, outcome: ReadOutcome, tellOk: bool)
    requires Valid(s) && 0 <= buflen <= INT_MAX
    ensures Tracks(s) ==> Tracks(Read(s, hasBuffer, buflen, outcome, tellOk).stream)
    ensures InBounds(s) && outcome != BadBitOnly ==> InBounds(Read(s, hasBuffer, buflen, outcome, tellOk).stream)
    ensures buflen > 0 && hasBuffer && s.isOpen && !ReadsFully(s, buflen, outcome) && outcome != BadBitOnly && tellOk ==>
      InBounds(Read(s, hasBuffer, buflen, outcome, tellOk).stream)
  {
  }

  /**
   A read whose `fstream` read sets only `badbit` reports all `buflen` bytes
   read although none are known to have arrived, and moves the cursor by
   `buflen`, past the end of the file when fewer bytes were left.
   */
  lemma BadBitReadOverstates(s: FileStream, buflen: int, tellOk: bool)
    requires Valid(s) && s.isOpen && InBounds(s)
    requires 0 < buflen <= INT_MAX
    ensures var r := Read(s, true, buflen, BadBitOnly, tellOk);
      && r.reply == Returned(buflen)
      && r.bytes == []
      && r.stream.offset == s.offset + buflen
      && Tracks(r.stream)
      && (s.offset + buflen > s.length <==> !InBounds(r.stream))
  {
    assert (s.offset + buflen) % SIZE_MODULUS == s.offset + buflen;
  }

  /**
   A read on a stream free of I/O errors, with the cursor inside the file,
   reports exactly the number of bytes it delivered: the next ones after the
   cursor, never more than asked for, and it moves the cursor past them.
   */
  lemma ReadReportsBytesDelivered(s: FileStream, buflen: int)
    requires Valid(s) && s.isOpen && s.offset <= |s.content|
    requires 0 < buflen <= INT_MAX
    ensures var r := Read(s, true, buflen, Clean, true);
      exists c :: r.reply == Returned(c)
        && 0 <= c <= buflen
        && c == |r.bytes|
        && r.bytes == s.content[s.offset..s.offset + c]
        && r.stream.offset == s.offset + c
        && r.stream.content == s.content
  {
    var r := Read(s, true, buflen, Clean, true);
    if ReadsFully(s, buflen, Clean) {
      assert r.reply == Returned(buflen);
    } else {
      var c := |s.content| - s.offset;
      assert (|s.content| - s.offset) % SIZE_MODULUS == c;
      assert r.reply == Returned(c);
    }
  }

  /**
   A read that stops short, at the end of the file or on an `fstream` read
   that sets `failbit`, returns the file's length minus the old cursor and
   leaves both the cursor and `length_` at the file's length. Only a read that
   met the end delivers the rest of the file.
   */
  lemma ShortReadAtEnd(s: FileStream, buflen: int, outcome: ReadOutcome)
    requires Valid(s) && s.isOpen && InBounds(s)
    requires 0 < buflen <= INT_MAX && !ReadsFully(s, buflen, outcome) && outcome != BadBitOnly
    requires s.length - s.offset <= INT_MAX
    ensures var r := Read(s, true, buflen, outcome, true);
      && r.reply == Returned(s.length - s.offset)
      && r.bytes == (if outcome == Clean then s.content[s.offset..] else [])
      && r.stream.offset == s.length
      && r.stream.length == s.length
  {
  }

  /**
   After `seek` moves the cursor past the end of the file, a read that finds
   the end throws: `len - offset_` wraps around in `size_t` and cannot be
   narrowed to `int`, unless the cursor is within `INT_MAX` of wrapping back
   (see ReadFarPastEndWraps). The cursor and `length_` have already been moved
   to the end when it throws.
   */
  lemma ReadPastEndThrows(s: FileStream, buflen: int, outcome: ReadOutcome)
    requires Valid(s) && s.isOpen && |s.content| < s.offset
    requires s.offset + INT_MAX < SIZE_MODULUS + |s.content|
    requires 0 < buflen <= INT_MAX && outcome != BadBitOnly
    ensures var r := Read(s, true, buflen, outcome, true);
      r.reply == NarrowingError && r.stream.offset == |s.content| && Tracks(r.stream)
  {
    var k := s.offset - |s.content|;
    assert (|s.content| - s.offset) % SIZE_MODULUS == SIZE_MODULUS - k;
  }

  /**
   Further past the end the subtraction wraps back into range: with the
   cursor `k` short of `2^64`, a file of `L` bytes reports `L + k` bytes read
   (one byte for an empty file at `2^64 - 1`).
   */
  lemma ReadFarPastEndWraps(s: FileStream, k: nat, buflen: int, outcome: ReadOutcome)
    requires Valid(s) && s.isOpen && 1 <= k && s.offset == SIZE_MODULUS - k
    requires |s.content| + k <= INT_MAX && 0 < buflen <= INT_MAX && outcome != BadBitOnly
    ensures Read(s, true, buflen, outcome, true).reply == Returned(|s.content| + k)
  {
    assert (|s.content| - s.offset) % SIZE_MODULUS == |s.content| + k;
  }

  /**
   When the `fstream` read sets `failbit` for a reason other than the end of
   the file, the count reported is the distance to the end, which exceeds the number of
   bytes asked for whenever more than that remain, while nothing is delivered.
   */
  lemma FailedReadReportsDistanceToEnd(s: FileStream, buflen: int)
    requires Valid(s) && s.isOpen && InBounds(s)
    requires 0 < buflen < s.length - s.offset <= INT_MAX
    ensures var r := Read(s, true, buflen, FailBit, true);
      r.reply.Returned? && r.reply.code > buflen && r.bytes == []
  {
    ShortReadAtEnd(s, buflen, FailBit);
  }

  /** Once closed, a stream refuses every non-empty read and stays as it is. */
  lemma ClosedStreamRefusesReads(s: FileStream, hasBuffer: bool, buflen: int, outcome: ReadOutcome, tellOk: bool)
    requires Valid(s) && 0 < buflen <= INT_MAX
    ensures Read(Close(s), hasBuffer, buflen, outcome, tellOk) == Got(Returned(-1), [], Close(s))
  {
  }

  /**
   Bytes written at the cursor are the bytes read back after seeking to where
   the write began, whether or not the flush reported success; the write
   leaves the cursor and `length_` in agreement with the file.
   */
  lemma WriteSeekReadRoundTrip(s: FileStream, data: seq<byte>, flushOk: bool)
    requires Valid(s) && s.isOpen && Tracks(s)
    requires 0 < |data| <= INT_MAX && s.offset + |data| < STREAMOFF_BOUND
    ensures var w := Write(s, Some(data), |data|, true, flushOk);
      var r := Read(Seek(w.stream, s.offset), true, |data|, Clean, true);
      && w.ret == (if flushOk then |data| else -1)
      && InBounds(w.stream)
      && r.reply == Returned(|data|)
      && r.bytes == data
      && r.stream.offset == s.offset + |data|
  {
    var w := Write(s, Some(data), |data|, true, flushOk);
    assert data[..|data|] == data;
    var t := Seek(w.stream, s.offset);
    assert ReadsFully(t, |data|, Clean);
    var got := t.content[s.offset..s.offset + |data|];
    assert forall i :: 0 <= i < |data| ==> got[i] == data[i];
  }

  /** A stream opened at an offset inside the file reads the file from that offset. */
  lemma OpenAtReadsFromOffset(file: seq<byte>, offset: nat, buflen: int, tellOk: bool)
    requires |file| < STREAMOFF_BOUND && offset < UINT32_BOUND
    requires 0 < buflen <= INT_MAX && offset + buflen <= |file|
    ensures var r := Read(OpenAt(Some(file), offset), true, buflen, Clean, tellOk);
      r.reply == Returned(buflen) && r.bytes == file[offset..offset + buflen]
      && r.stream.offset == offset + buflen && InBounds(r.stream)
  {
  }
}

=== FILE: stream_tests.dfy ===
/**
 The stream unit tests' scenarios, each stated for every execution: a fresh
 `BufferStream`, one write, one read.
 */
module StreamTests {
  import opened StreamBase
  import opened BigEndian
  import opened BufferStreams

  /** The eight bytes 01 02 .. 08. */
  function OneToEight(): (bs: seq<byte>)
    ensures |bs| == 8
  {
    [1, 2, 3, 4, 5, 6, 7, 8]
  }

  /** Bytes 01..08 denote 0x0102030405060708 in the big-endian layout. */
  lemma OneToEightValue()
    ensures Decode(OneToEight()) == 0x0102030405060708
  {
    var bs := OneToEight();
    assert Decode(bs[..1]) == 1;
    assert Decode(bs[..2]) == 0x0102 by { assert bs[..2][..1] == bs[..1]; }
    assert Decode(bs[..3]) == 0x010203 by { assert bs[..3][..2] == bs[..2]; }
    assert Decode(bs[..4]) == 0x01020304 by { assert bs[..4][..3] == bs[..3]; }
    assert Decode(bs[..5]) == 0x0102030405 by { assert bs[..5][..4] == bs[..4]; }
    assert Decode(bs[..6]) == 0x010203040506 by { assert bs[..6][..5] == bs[..5]; }
    assert Decode(bs[..7]) == 0x01020304050607 by { assert bs[..7][..6] == bs[..6]; }
    assert bs[..8] == bs;
    assert bs[..7] == bs[..|bs| - 1];
  }

  /** Writing bytes 01..08 and reading a `uint64_t` returns 8 and 0x0102030405060708. */
  lemma ReadDataScenario()
    ensures var r := ReadValue(WriteBytes(NewStream(), OneToEight()).stream, U64);
      r.ret == 8 && r.value == Some(0x0102030405060708)
  {
    WriteBytesThenReadValue(NewStream(), U64, OneToEight());
    OneToEightValue();
  }

  /** Writing the `uint64_t` 0x0102030405060708 and reading 8 raw bytes returns 8 and bytes 01..08. */
  lemma WriteScenario()
    ensures var r := ReadBytes(WriteValue(NewStream(), U64, 0x0102030405060708).stream, 8);
      r.ret == 8 && r.bytes == OneToEight()
  {
    OneToEightValue();
    EncodeDecode(OneToEight());
    WriteValueThenReadBytes(NewStream(), U64, 0x0102030405060708);
  }

  /** The value 8 written as `uint16_t`, `uint32_t` and `uint64_t` reads back as 8. */
  lemma ReadWidthsScenario()
    ensures ReadValue(WriteValue(NewStream(), U16, 8).stream, U16).value == Some(8)
    ensures ReadValue(WriteValue(NewStream(), U32, 8).stream, U32).value == Some(8)
    ensures ReadValue(WriteValue(NewStream(), U64, 8).stream, U64).value == Some(8)
  {
    WriteThenReadValue(NewStream(), U16, 8);
    WriteThenReadValue(NewStream(), U32, 8);
    WriteThenReadValue(NewStream(), U64, 8);
  }

  /** One raw byte 8 read back as a `uint8_t` returns 1 and the value 8. */
  lemma ReadOneScenario()
    ensures var r := ReadValue(WriteBytes(NewStream(), [8]).stream, U8);
      r.ret == 1 && r.value == Some(8)
  {
    WriteBytesThenReadValue(NewStream(), U8, [8]);
  }
}
